=== FILE: README.md ===
# TamaFi display layer: timing and state model

This project models the state logic of TamaFi's display layer (`TamaFi/ui.cpp`).
TamaFi is a Wi-Fi-fed virtual pet for the ESP32. Each pass of the control loop,
the host calls `uiDrawScreen`. It moves the highlight target of the list menu on
screen, then runs that screen's renderer. The renderers advance timer-gated
sprite animations: egg idle, hatching, pet idle, hunting and dying. They also ease
the highlight bar of the three list menus toward the selected row. The hatch
screen runs a small state machine that ends by switching the host to the Home
screen.

The model has three layers:

- Pure helpers: the 32-bit millisecond clock (`Timing`), the C enumerations
  (`Enums`), the text lookups (`Labels`), the stat-bar fill width and uptime
  split (`Metrics`), and the timer-gated frame counters (`Counters`).
- The highlight easer (`Easer`). `Approach` and `EaseTick` are its pure
  specification. Class `Highlight` holds one `{Y, targetY, lastTick}` triple
  and updates it in place, as `animateSelector` does through its reference
  parameters.
- The UI state. `Screens` holds it as a value (`UiModel`), with one step
  function per public operation and per stateful renderer, and the lemmas about
  them. Class `Ui.UiState` holds the same state as fields: the static counters
  and timestamps, three `Highlight` objects, and the host flags the UI writes
  (`hasHatchedOnce`, `hatchTriggered`, `currentScreen`). Each of its methods
  follows the C code. Its postcondition says that `Model()` moves exactly as
  the matching step function says.

`millis()` becomes a `now: Millis` parameter, a value in `[0, 2^32)`. Every
gate `now - last >= delay` uses `Elapsed`, which subtracts modulo 2^32 as
`unsigned long` does on the ESP32. A call of `sndHatch()` becomes the `cue`
result of a step. The host globals the UI only reads are passed as one `Host`
value.

The code sometimes behaves differently from what a reader might expect. The model follows the code:

- The hatch sound is requested on every call while the hatch frame is 0, not once
  per hatch (`Screens.HatchCueRepeats`). With every call due, the count is exactly
  one (`Screens.HatchSequence`).
- The hatch ends on the due tick after frame 4. That tick shows no frame. It
  sets `hasHatchedOnce`, clears the trigger, rewinds the frame and switches to
  Home.
- Entering Controls or Settings snaps the highlight to `calcHighlightY(...)`.
  Every later draw aims 4 pixels higher. So on entry the highlight slides 4
  pixels, in two due ticks (`Screens.EnterThenDraw`). The main menu does not
  slide.
- `uiDrawScreen` sets the Settings target from the global `settingsMenuIndex`,
  not from its `settingsIdx` parameter. The parameter is used only for the row
  drawn in yellow.
- `uiInit` does not reset the hunt counter or the menu highlights: only the
  idle, egg-idle, hatch and death counters restart (`Screens.InitStep`).
- This file has no timer for the hunger overlay or the rest animation. It only
  reads `hungerEffectFrame`, `restPhase` and `restFrameIndex` from the host.

## Model

| member | source | states |
|---|---|---|
| Timing.Elapsed | TamaFi/ui.cpp:161 | `now - last` on 32-bit unsigned values: the plain difference when `now >= last`, otherwise the difference plus 2^32 |
| Timing.ElapsedAfter | TamaFi/ui.cpp:161 | a reading taken `d < 2^32` ms after `last` is measured as exactly `d`, also across a wrap of the clock |
| Timing.Fires | TamaFi/ui.cpp:211-214 | a series of calls fires a timer at most once per call (no catch-up) |
| Timing.AllDueFires | TamaFi/ui.cpp:211-214 | when every call is due, every call fires and the timer holds the last reading |
| Timing.AllDuePrefix | TamaFi/ui.cpp:232-233 | every prefix of a series of due calls is a series of due calls |
| Enums.MoodCode | TamaFi/ui.h:40-48 | each mood has its C value, in `[0, 7)` |
| Enums.StageCode | TamaFi/ui.h:33-38 | each stage has its C value, in `[0, 4)` |
| Enums.ActivityCode | TamaFi/ui.h:26-31 | each activity has its C value, in `[0, 4)` |
| Enums.RestPhaseCode | TamaFi/ui.h:50-55 | each rest phase has its C value, in `[0, 4)` |
| Labels.MoodText | TamaFi/ui.cpp:87-98 | the label is "?" exactly for values outside the seven moods |
| Labels.StageText | TamaFi/ui.cpp:100-108 | the label is "?" exactly for values outside the four stages |
| Labels.ActivityText | TamaFi/ui.cpp:110-117 | the label is empty exactly for ACT_NONE and values outside the enumeration |
| Labels.HomeHeader | TamaFi/ui.cpp:287-290 | the Home header reads "Idle" exactly for ACT_NONE, otherwise the activity label |
| Labels.RestPhaseText | TamaFi/ui.cpp:668-670 | the Diagnostics line reads "NONE" exactly for REST_NONE and values outside the enumeration |
| Labels.BrightnessText | TamaFi/ui.cpp:580 | "High" exactly for every index other than 0 and 1 |
| Labels.IdleSet | TamaFi/ui.cpp:171-179 | each stage selects its own idle set; any other value selects the baby set |
| Labels.MoodTextInjective | TamaFi/ui.cpp:87-98 | distinct moods get distinct labels |
| Labels.StageTextInjective | TamaFi/ui.cpp:100-108 | distinct stages get distinct labels |
| Labels.HomeHeaderInjective | TamaFi/ui.cpp:287-290 | the Home header tells every activity apart, and every real activity has a non-empty label |
| Labels.IdleSetOfStage | TamaFi/ui.cpp:171-179 | the idle set of a stage's C value is that stage's set |
| Metrics.TruncDiv | TamaFi/ui.cpp:134 | C's `/` on int: the remainder `a - q*b` is below `b` in size and carries the sign of the dividend (truncation toward zero) |
| Metrics.BarFill | TamaFi/ui.cpp:134 | for a percentage in `[0, 100]` the fill lies in `[0, w-2]`; 100 fills the bar and 0 leaves it empty |
| Metrics.BarFillMonotone | TamaFi/ui.cpp:134 | a larger percentage never draws a shorter fill |
| Metrics.UptimeSplit | TamaFi/ui.cpp:521-524 | minutes and seconds are below 60, `h*3600 + m*60 + s` is the uptime in whole seconds, and hours stay at most 1193 on the 32-bit clock |
| Metrics.UptimeSplitUnique | TamaFi/ui.cpp:521-524 | every `h:m:s` with `m, s < 60` is what the split shows for its own uptime (the split is inverse to recomposition) |
| Counters.CyclicStep | TamaFi/ui.cpp:352-355 | a cyclic counter keeps its frame in `[0, n)` and does not change while its delay has not elapsed |
| Counters.ClampedStep | TamaFi/ui.cpp:690-695 | the death frame never decreases and never passes its cap; nothing changes while the delay has not elapsed |
| Counters.CyclicAtMostOneStep | TamaFi/ui.cpp:331-334 | one call moves a cyclic frame one step or none; a due call, however late, steps exactly once and stamps `now` |
| Counters.CyclicRunCounts | TamaFi/ui.cpp:331-334 | after any calls, a cyclic frame is `(start + fired calls) mod n` and holds the stamp of the last fired call |
| Counters.CyclicAfterDueTicks | TamaFi/ui.cpp:211-214 | started at frame 0, a cyclic frame is `k mod n` after `k` due calls |
| Counters.ClampedRunCounts | TamaFi/ui.cpp:690-695 | after any calls, the death frame is `min(start + fired calls, 2)` |
| Easer.Approach | TamaFi/ui.cpp:163-168 | off target, the distance to the target strictly shrinks; the position stays between start and target; it moves exactly 3 px or lands on the target |
| Easer.EaseTick | TamaFi/ui.cpp:159-169 | the target never changes; before 16 ms have elapsed nothing changes; when due, `lastTick` becomes `now`, even if the position is already on target |
| Easer.EaseArrives | TamaFi/ui.cpp:165-168 | after `k` due ticks the position is on the target exactly when `k >= ceil(abs(target - pos) / 3)` |
| Easer.EaseNoOvershoot | TamaFi/ui.cpp:165-168 | after any number of due ticks the position lies between its start and its target |
| Easer.RunEaseAllDue | TamaFi/ui.cpp:159-169 | a series of due calls moves the position as that many due ticks do and keeps the target |
| Easer.RunEaseFires | TamaFi/ui.cpp:159-169 | after any series of calls, late or early, the position is where as many due ticks as fired would take it; the target is kept and the stamp is the last fired call's |
| Easer.HighlightSettles | TamaFi/ui.cpp:159-169 | with every call due, the highlight is on its target after `ceil(abs(target - y) / 3)` calls |
| Easer.Highlight.constructor | TamaFi/ui.cpp:66-76 | a highlight starts at position 30 and target 30, never ticked |
| Easer.Highlight.Animate | TamaFi/ui.cpp:159-169 | the triple moves exactly as `EaseTick` says |
| Screens.CalcHighlightY | TamaFi/ui.cpp:83-85 | row 0's highlight sits 5 px above the list's top offset, and no row with a non-negative index and height has a higher highlight |
| Screens.HighlightRowsSpaced | TamaFi/ui.cpp:83-85 | highlights of rows `i` and `j` are `(j - i) * rowHeight` apart, so lower rows get lower, distinct highlights |
| Screens.MenuStep | TamaFi/ui.cpp:381-388 | a Main Menu draw eases only the main-menu highlight, as `EaseTick` does, draws the bar at its new position and requests no sound |
| Screens.ControlsStep | TamaFi/ui.cpp:543-550 | a Controls draw eases only the Controls highlight, as `EaseTick` does, draws the bar at its new position and requests no sound |
| Screens.SettingsStep | TamaFi/ui.cpp:603-610 | a Settings draw eases only the Settings highlight, as `EaseTick` does, draws the bar at its new position and requests no sound |
| Screens.Dispatch | TamaFi/ui.cpp:756-768 | each screen runs its own renderer; the list menus get the row passed to `uiDrawScreen` |
| Screens.Initial | TamaFi/ui.cpp:53-76 | the static initial values keep every frame inside its sprite table |
| Screens.InitStep | TamaFi/ui.cpp:712-724 | the idle, egg-idle, hatch and death counters restart at frame 0 stamped `now`; the hunt counter, the three highlights, the flags and the screen are left alone; afterwards every frame is in range exactly when the hunt frame is |
| Screens.ScreenChangeStep | TamaFi/ui.cpp:726-739 | entering a screen keeps every frame in range |
| Screens.HatchStep | TamaFi/ui.cpp:201-260 | a Hatch tick keeps every frame in range and shows only frames inside their tables; it requests the hatch sound exactly when the hatch is triggered, not yet done and at frame 0; after the trigger, a call that is not due changes nothing and a due call below frame 4 only steps the frame and stamps `now` |
| Screens.IdleDelay | TamaFi/ui.cpp:348-350 | the idle delay is 120 ms when excited, 280 ms when bored or sick, and 200 ms otherwise |
| Screens.HomeAnimation | TamaFi/ui.cpp:299-348 | Home plays the rest animation exactly when the activity is REST with a phase other than NONE, and the hunt animation exactly when the activity is HUNT |
| Screens.RestFrame | TamaFi/ui.cpp:299-316 | the rest frame is always in `[0, 4]` |
| Screens.HomeStep | TamaFi/ui.cpp:283-375 | a Home tick keeps every frame in range and shows only frames inside their tables |
| Screens.GameOverStep | TamaFi/ui.cpp:685-707 | a Game Over tick keeps every frame in range and shows only frames inside their tables |
| Screens.DrawStep | TamaFi/ui.cpp:741-769 | every draw keeps every frame in range and shows only frames inside their tables |
| Screens.EggIdleLoop | TamaFi/ui.cpp:210-225 | before the trigger, any calls change only the egg-idle counter and request no sound |
| Screens.HatchAdvances | TamaFi/ui.cpp:228-235 | after the trigger, each due tick raises the hatch frame by one up to 4; only the call at frame 0 requests the sound |
| Screens.HatchCompletes | TamaFi/ui.cpp:232-243 | the due tick after frame 4 sets `hasHatchedOnce`, clears `hatchTriggered`, rewinds the frame to 0 and switches the screen to Home |
| Screens.HatchSequence | TamaFi/ui.cpp:227-255 | from the trigger: frames 1, 2, 3, 4 on the first four due ticks, completion on the fifth, and one sound request |
| Screens.HatchRunFires | TamaFi/ui.cpp:228-235 | after the trigger, calls at any pace leave the hatch frame as many steps ahead as calls fired (up to 4), stamped with the last fired call, and change nothing else |
| Screens.HatchedStays | TamaFi/ui.cpp:257-259 | once hatched, any further calls keep the pet hatched, the trigger clear, the frame at 0 and the screen on Home |
| Screens.HatchRunCompletes | TamaFi/ui.cpp:228-244 | after the trigger, calls at any pace finish the hatch once `5 - frame` of them have fired, and the pet stays hatched on Home afterwards |
| Screens.HatchCueRepeats | TamaFi/ui.cpp:229-231 | any `k` calls at frame 0 before the first frame is due request the sound `k` times |
| Screens.HatchedFallsBack | TamaFi/ui.cpp:257-259 | once hatched, the Hatch screen switches to Home and changes nothing else |
| Screens.HatchIsFinal | TamaFi/ui.cpp:236-240 | no draw, screen change or init clears `hasHatchedOnce` |
| Screens.HomeTouchesOneCounter | TamaFi/ui.cpp:299-355 | a Home tick changes only the counter of the animation it plays: none for rest, the hunt counter for hunt, the idle counter for idle |
| Screens.IdleCadence | TamaFi/ui.cpp:348-355 | a Home idle tick `d` ms after the last advance moves the frame exactly when `d` reaches the mood's delay |
| Screens.RestEnterWakeMirror | TamaFi/ui.cpp:303-314 | for the same counter, the ENTER and WAKE frames sum to 4 |
| Screens.RestFrameDirection | TamaFi/ui.cpp:303-314 | ENTER counts the frame down and WAKE counts it up as the counter grows |
| Screens.DeathFrameOnlyRises | TamaFi/ui.cpp:690-695 | no draw lowers the death frame or raises it past 2; a screen change keeps it; only init resets it to 0 |
| Screens.EnterSnaps | TamaFi/ui.cpp:726-739 | entering MENU, CONTROLS or SETTINGS sets that highlight's `Y == targetY == 30 + row*h - 5` (h = 20, 20, 18) and changes nothing else; entering HATCH only rewinds the egg and hatch frames |
| Screens.SetTargets | TamaFi/ui.cpp:746-754 | before rendering, a draw changes only the target of the drawn menu: the entry position for the main menu, 4 less for Controls and Settings |
| Screens.EnterThenDraw | TamaFi/ui.cpp:726-754 | after entry and a draw of the same row, the main-menu highlight is still on target; Controls and Settings still need to slide 4 px, which takes two due ticks |
| Ui.UiState.constructor | TamaFi/ui.cpp:53-76 | the object starts in the state the static initialisers give, with three separate highlights |
| Ui.UiState.Init | TamaFi/ui.cpp:712-724 | the state moves as `InitStep` says |
| Ui.UiState.OnScreenChange | TamaFi/ui.cpp:726-739 | the state moves as `ScreenChangeStep` says |
| Ui.UiState.ScreenHatch | TamaFi/ui.cpp:201-260 | the state, the shown frame and the sound request are those of `HatchStep` |
| Ui.UiState.ScreenHome | TamaFi/ui.cpp:283-375 | the state and the shown frame are those of `HomeStep` |
| Ui.UiState.ScreenGameOver | TamaFi/ui.cpp:685-707 | the state and the shown frame are those of `GameOverStep` |
| Ui.UiState.ScreenMenu | TamaFi/ui.cpp:381-388 | the main-menu highlight eases as `EaseTick` says; nothing else changes |
| Ui.UiState.ScreenControls | TamaFi/ui.cpp:543-550 | the Controls highlight eases as `EaseTick` says; nothing else changes |
| Ui.UiState.ScreenSettings | TamaFi/ui.cpp:603-610 | the Settings highlight eases as `EaseTick` says; nothing else changes |
| Ui.UiState.DrawScreen | TamaFi/ui.cpp:741-769 | it runs the renderer `Dispatch` picks, and the state, shown frame and sound request are those of `DrawStep` |

## Left out

- Pixel output is left out: every `fb`, `petSprite` and `effectSprite` call of the TFT_eSPI library. A renderer's result records only what depends on state: the header and sprite frame (`PetView`), or the highlight position and yellow row (`ListView`).
- The sprite and background image arrays are left out. Only their lengths enter, through `InTable` and `FramesInRange`.
- Menu icons, bubbles, row coordinates, item label tables and static text are left out. They are fixed drawing templates.
- The Boot, Pet Status, Environment, System Info and Diagnostics renderers change no state. The model records only that their renderer runs. Their lookups (`RestPhaseText`, `BrightnessText`, `UptimeSplit`) are modelled separately.
- `millis()` becomes the `now` parameter. `uiInit` reads the clock four times; `InitStep` stamps all four counters with one reading.
- `ESP.getFreeHeap()` is left out: it is a hardware call.
- The `printf` formatting of the uptime is left out. Only the arithmetic split is modelled.
- `ledcWriteTone(5, 0)`, which silences the buzzer at the start of every Hatch tick, is left out: it is a hardware call.
- `sndHatch()` is reported as the `cue` result rather than called.
- The hunger overlay frame comes from the host and is not range-checked here. `ShownInTable` therefore says nothing about `HungerOverlay`.
- The timing of the hunger overlay and of the rest phases belongs to the host. The `HUNGER_EFFECT_*` and `REST_*` constants are unused in this file.
- Pet simulation, Wi-Fi scanning, button handling and persistence live outside this file. Their results enter through `Host`.
- Out-of-range enum values are modelled only in the `Labels` functions, which take raw C values. Everywhere else the enums are Dafny datatypes, so such values cannot reach the state steps.
- Metrics.BarFill: uses unbounded integers, because the 32-bit `int` product `(w - 2) * value` overflows only far outside the percentages the host supplies.
- Counters.CyclicStep: uses Dafny's `%` rather than C's truncating `%`. The two agree because the frames stay non-negative, which `UiState.Valid` keeps.
- Screens.DrawStep: treats the highlight positions and `calcHighlightY` as unbounded integers. The source's row indices and pixel values are far below the 32-bit `int` limits.

=== FILE: counters.dfy ===
/** Timer-gated frame counters: a frame index and the clock reading of its
    last advance.  Cyclic counters (egg idle, idle, hunt) wrap modulo their
    frame count; the death counter stops at its last frame.  Either kind
    advances at most once per call, however late the call comes. */
module Counters {
  import opened Timing

  datatype Counter = Counter(frame: int, last: Millis)

  /** One call of a cyclic counter with `n` frames: when `delay` has elapsed it
      stamps `now` and steps to `(frame + 1) % n`.  Frames are never negative,
      so C's `%` and Dafny's agree here. */
  function CyclicStep(c: Counter, now: Millis, delay: nat, n: nat): (r: Counter)
    requires n > 0
    ensures 0 <= c.frame < n ==> 0 <= r.frame < n
    ensures !Due(now, c.last, delay) ==> r == c
  {
    if Due(now, c.last, delay) then Counter((c.frame + 1) % n, now) else c
  }

  /** One call of the death counter: when `delay` has elapsed it stamps `now`
      and increments the frame, clamped at `max`. */
  function ClampedStep(c: Counter, now: Millis, delay: nat, max: nat): (r: Counter)
    ensures c.frame <= max ==> c.frame <= r.frame <= max
    ensures !Due(now, c.last, delay) ==> r == c
  {
    if Due(now, c.last, delay) then
      var f := c.frame + 1;
      Counter(if f > max then max else f, now)
    else c
  }

  /** The counter after a series of calls at the clock readings `nows`. */
  function RunCyclic(c: Counter, nows: seq<Millis>, delay: nat, n: nat): Counter
    requires n > 0
    decreases |nows|
  {
    if |nows| == 0 then c else RunCyclic(CyclicStep(c, nows[0], delay, n), nows[1..], delay, n)
  }

  function RunClamped(c: Counter, nows: seq<Millis>, delay: nat, max: nat): Counter
    decreases |nows|
  {
    if |nows| == 0 then c else RunClamped(ClampedStep(c, nows[0], delay, max), nows[1..], delay, max)
  }

  /** A single call never catches up: however much time has passed, the frame
      moves by one step or not at all, and a due call moves it exactly once,
      even when two or more delays have elapsed. */
  lemma CyclicAtMostOneStep(c: Counter, now: Millis, delay: nat, n: nat)
    requires n > 0
    ensures CyclicStep(c, now, delay, n).frame in {c.frame, (c.frame + 1) % n}
    ensures Due(now, c.last, delay) ==> CyclicStep(c, now, delay, n) == Counter((c.frame + 1) % n, now)
  {
  }

  lemma ModAddOne(f: nat, k: nat, n: nat)
    requires n > 0
    ensures ((f + 1) % n + k) % n == (f + 1 + k) % n
  {
    var q := (f + 1) / n;
    assert f + 1 == q * n + (f + 1) % n;
    assert (f + 1 + k) == ((f + 1) % n + k) + q * n;
    ModShift((f + 1) % n + k, q, n);
  }

  lemma ModShift(a: nat, q: nat, n: nat)
    requires n > 0
    ensures (a + q * n) % n == a % n
  {
    var x := a + q * n;
    var q0, r0 := a / n, a % n;
    assert a == q0 * n + r0;
    assert x == (q0 + q) * n + r0 by {
      assert (q0 + q) * n == q0 * n + q * n;
    }
    ModUnique(x, q0 + q, r0, n);
  }

  /** Euclidean division is unique. */
  lemma ModUnique(x: int, q: int, r: int, n: int)
    requires n > 0 && 0 <= r < n && x == q * n + r
    ensures x % n == r
  {
    var q', r' := x / n, x % n;
    assert x == q' * n + r' && 0 <= r' < n;
    assert (q - q') * n == r' - r by {
      assert (q - q') * n == q * n - q' * n;
    }
    if q > q' {
      MulGe(q - q', n);
      assert false;
    }
    if q' > q {
      MulGe(q' - q, n);
      assert false;
    }
  }

  /** A positive multiple of `n` is at least `n`. */
  lemma {:induction false} MulGe(d: nat, n: int)
    requires d >= 1 && n > 0
    ensures d * n >= n
    decreases d
  {
    if d > 1 {
      MulGe(d - 1, n);
      assert d * n == (d - 1) * n + n;
    }
  }

  /** A cyclic counter in range is, after any series of calls, as many steps
      ahead (modulo `n`) as calls fired, and holds the stamp of the last one. */
  lemma {:induction false} CyclicRunCounts(c: Counter, nows: seq<Millis>, delay: nat, n: nat)
    requires n > 0 && 0 <= c.frame < n
    ensures RunCyclic(c, nows, delay, n).frame == (c.frame + Fires(c.last, nows, delay)) % n
    ensures RunCyclic(c, nows, delay, n).last == Stamp(c.last, nows, delay)
    decreases |nows|
  {
    if |nows| > 0 {
      var c' := CyclicStep(c, nows[0], delay, n);
      CyclicRunCounts(c', nows[1..], delay, n);
      if Due(nows[0], c.last, delay) {
        ModAddOne(c.frame, Fires(nows[0], nows[1..], delay), n);
      }
    }
  }

  /** Started at frame 0, a cyclic counter shows frame `k mod n` after `k`
      due advances. */
  lemma CyclicAfterDueTicks(last: Millis, nows: seq<Millis>, delay: nat, n: nat)
    requires n > 0 && AllDue(last, nows, delay)
    ensures RunCyclic(Counter(0, last), nows, delay, n).frame == |nows| % n
  {
    CyclicRunCounts(Counter(0, last), nows, delay, n);
    AllDueFires(last, nows, delay);
  }

  /** The death counter, after any series of calls, is its old frame plus the
      number of calls that fired, capped at `max`: it never passes `max` and
      never goes back. */
  lemma {:induction false} ClampedRunCounts(c: Counter, nows: seq<Millis>, delay: nat, max: nat)
    requires 0 <= c.frame <= max
    ensures var f := c.frame + Fires(c.last, nows, delay);
            RunClamped(c, nows, delay, max).frame == if f > max then max else f
    ensures RunClamped(c, nows, delay, max).last == Stamp(c.last, nows, delay)
    decreases |nows|
  {
    if |nows| > 0 {
      ClampedRunCounts(ClampedStep(c, nows[0], delay, max), nows[1..], delay, max);
    }
  }
}

=== FILE: easer.dfy ===
/** The highlight easer of the three list menus (animateSelector): every
    MENU_ANIM_INTERVAL milliseconds the highlight's position moves
    MENU_ANIM_STEP pixels toward its target, snapping onto the target when it
    is closer than one step. */
module Easer {
  import opened Timing

  /** The highlight triple {position, target, last tick} of one menu. */
  datatype Cursor = Cursor(y: int, targetY: int, lastTick: Millis)

  function Abs(x: int): nat
  {
    if x < 0 then -x else x
  }

  /** Where one due tick moves the position `pos` toward `target`. */
  function Approach(pos: int, target: int): (r: int)
    ensures pos != target ==> Abs(target - r) < Abs(target - pos)
    ensures pos <= target ==> pos <= r <= target
    ensures target <= pos ==> target <= r <= pos
    ensures r == target || Abs(r - pos) == MENU_ANIM_STEP
  {
    if pos == target then pos
    else
      var diff := target - pos;
      var step := if diff > 0 then MENU_ANIM_STEP as int else -(MENU_ANIM_STEP as int);
      if Abs(diff) < MENU_ANIM_STEP then target else pos + step
  }

  /** One call of animateSelector at clock reading `now`. */
  function EaseTick(c: Cursor, now: Millis): (r: Cursor)
    ensures r.targetY == c.targetY
    ensures !Due(now, c.lastTick, MENU_ANIM_INTERVAL) ==> r == c
    ensures Due(now, c.lastTick, MENU_ANIM_INTERVAL) ==> r.lastTick == now
  {
    if Elapsed(now, c.lastTick) < MENU_ANIM_INTERVAL then c
    else if c.y == c.targetY then c.(lastTick := now)
    else c.(lastTick := now, y := Approach(c.y, c.targetY))
  }

  /** The position after `k` due ticks. */
  function EaseIter(pos: int, target: int, k: nat): int
    decreases k
  {
    if k == 0 then pos else EaseIter(Approach(pos, target), target, k - 1)
  }

  /** The number of due ticks the easer needs: ceil(|target - pos| / step). */
  function TicksToTarget(pos: int, target: int): nat
  {
    (Abs(target - pos) + MENU_ANIM_STEP - 1) / MENU_ANIM_STEP
  }

  /** The cursor after calls at the clock readings `nows`. */
  function RunEase(c: Cursor, nows: seq<Millis>): Cursor
    decreases |nows|
  {
    if |nows| == 0 then c else RunEase(EaseTick(c, nows[0]), nows[1..])
  }

  /** Due ticks bring the position onto the target after exactly
      ceil(|target - pos| / 3) of them, and it stays there afterwards. */
  lemma {:induction false} EaseArrives(pos: int, target: int, k: nat)
    ensures EaseIter(pos, target, k) == target <==> k >= TicksToTarget(pos, target)
    decreases k
  {
    if k > 0 {
      var next := Approach(pos, target);
      EaseArrives(next, target, k - 1);
      if Abs(target - pos) >= MENU_ANIM_STEP {
        assert Abs(target - next) == Abs(target - pos) - MENU_ANIM_STEP;
      }
    }
  }

  /** Between the start and the arrival the position never leaves the segment
      from its start to its target: no overshoot. */
  lemma {:induction false} EaseNoOvershoot(pos: int, target: int, k: nat)
    ensures pos <= target ==> pos <= EaseIter(pos, target, k) <= target
    ensures target <= pos ==> target <= EaseIter(pos, target, k) <= pos
    decreases k
  {
    if k > 0 {
      EaseNoOvershoot(Approach(pos, target), target, k - 1);
    }
  }

  /** When every call is due, the calls move the position exactly as that
      many due ticks do, keep the target and stamp the last reading. */
  lemma {:induction false} RunEaseAllDue(c: Cursor, nows: seq<Millis>)
    requires AllDue(c.lastTick, nows, MENU_ANIM_INTERVAL)
    ensures RunEase(c, nows).y == EaseIter(c.y, c.targetY, |nows|)
    ensures RunEase(c, nows).targetY == c.targetY
    ensures RunEase(c, nows).lastTick == Stamp(c.lastTick, nows, MENU_ANIM_INTERVAL)
    decreases |nows|
  {
    if |nows| > 0 {
      RunEaseAllDue(EaseTick(c, nows[0]), nows[1..]);
    }
  }

  /** Late or early calls only delay the easer: after any series of calls the
      position is where as many due ticks as fired would take it, on the same
      path towards the same target. */
  lemma {:induction false} RunEaseFires(c: Cursor, nows: seq<Millis>)
    ensures RunEase(c, nows).y == EaseIter(c.y, c.targetY, Fires(c.lastTick, nows, MENU_ANIM_INTERVAL))
    ensures RunEase(c, nows).targetY == c.targetY
    ensures RunEase(c, nows).lastTick == Stamp(c.lastTick, nows, MENU_ANIM_INTERVAL)
    decreases |nows|
  {
    if |nows| > 0 {
      RunEaseFires(EaseTick(c, nows[0]), nows[1..]);
    }
  }

  /** A highlight whose every call is due reaches its target after
      ceil(|target - y| / 3) calls. */
  lemma HighlightSettles(c: Cursor, nows: seq<Millis>)
    requires AllDue(c.lastTick, nows, MENU_ANIM_INTERVAL)
    requires |nows| >= TicksToTarget(c.y, c.targetY)
    ensures RunEase(c, nows).y == RunEase(c, nows).targetY == c.targetY
  {
    RunEaseAllDue(c, nows);
    EaseArrives(c.y, c.targetY, |nows|);
  }

  /** One menu's highlight, updated in place through the references that
      animateSelector receives. */
  class Highlight {
    var y: int
    var targetY: int
    var lastTick: Millis

    ghost function Value(): Cursor
      reads this
    {
      Cursor(y, targetY, lastTick)
    }

    /** The static initial values: position and target 30, never ticked. */
    constructor ()
      ensures Value() == Cursor(30, 30, 0)
    {
      y, targetY, lastTick := 30, 30, 0;
    }

    /** animateSelector. */
    method Animate(now: Millis)
      modifies this
      ensures Value() == EaseTick(old(Value()), now)
    {
      if Elapsed(now, lastTick) < MENU_ANIM_INTERVAL {
        return;
      }
      lastTick := now;
      if y == targetY {
        return;
      }
      var diff := targetY - y;
      var step := if diff > 0 then MENU_ANIM_STEP as int else -(MENU_ANIM_STEP as int);
      if Abs(diff) < MENU_ANIM_STEP {
        y := targetY;
      } else {
        y := y + step;
      }
    }
  }
}

=== FILE: enums.dfy ===
/** The enumerations shared between the display layer and the host loop, with
    the integer value each enumerator has in C.  The text lookups work on
    those integer values, since a C enum variable may hold any of them. */
module Enums {

  datatype Screen =
    | Boot | Hatch | Home | Menu | PetStatus | Environment
    | SysInfo | Controls | Settings | Diagnostics | GameOver

  datatype Activity = NoActivity | Hunt | Discover | Rest

  datatype Stage = Baby | Teen | Adult | Elder

  datatype Mood = Hungry | Happy | Curious | Bored | Sick | Excited | Calm

  datatype RestPhase = RestNone | RestEnter | RestDeep | RestWake

  function ActivityCode(a: Activity): (c: int)
    ensures 0 <= c < 4
  {
    match a
    case NoActivity => 0
    case Hunt => 1
    case Discover => 2
    case Rest => 3
  }

  function StageCode(s: Stage): (c: int)
    ensures 0 <= c < 4
  {
    match s
    case Baby => 0
    case Teen => 1
    case Adult => 2
    case Elder => 3
  }

  function MoodCode(m: Mood): (c: int)
    ensures 0 <= c < 7
  {
    match m
    case Hungry => 0
    case Happy => 1
    case Curious => 2
    case Bored => 3
    case Sick => 4
    case Excited => 5
    case Calm => 6
  }

  function RestPhaseCode(p: RestPhase): (c: int)
    ensures 0 <= c < 4
  {
    match p
    case RestNone => 0
    case RestEnter => 1
    case RestDeep => 2
    case RestWake => 3
  }
}

=== FILE: labels.dfy ===
/** Text lookups of the display layer.  Each takes the integer value of a C
    enum, so that the fallback label for a value outside the enumeration is
    part of the model. */
module Labels {
  import opened Enums

  /** moodTextLocal: the status label of a mood, "?" for any other value. */
  function MoodText(code: int): (s: string)
    ensures s == "?" <==> !(0 <= code < 7)
  {
    if code == 0 then "HUNGRY"
    else if code == 1 then "HAPPY"
    else if code == 2 then "CURIOUS"
    else if code == 3 then "BORED"
    else if code == 4 then "SICK"
    else if code == 5 then "EXCITED"
    else if code == 6 then "CALM"
    else "?"
  }

  /** stageTextLocal: the label of a life stage, "?" for any other value. */
  function StageText(code: int): (s: string)
    ensures s == "?" <==> !(0 <= code < 4)
  {
    if code == 0 then "BABY"
    else if code == 1 then "TEEN"
    else if code == 2 then "ADULT"
    else if code == 3 then "ELDER"
    else "?"
  }

  /** activityTextLocal: the label of an activity; ACT_NONE and every value
      outside the enumeration read as the empty string. */
  function ActivityText(code: int): (s: string)
    ensures s == "" <==> !(1 <= code < 4)
  {
    if code == 1 then "HUNTING WIFI..."
    else if code == 2 then "DISCOVERING..."
    else if code == 3 then "RESTING..."
    else ""
  }

  /** The header of the Home screen: the activity label, or "Idle" when no
      activity is going on. */
  function HomeHeader(code: int): (s: string)
    ensures s == "Idle" <==> code == 0
    ensures code != 0 ==> s == ActivityText(code)
  {
    if code != 0 then ActivityText(code) else "Idle"
  }

  /** The rest-phase line of the Diagnostics screen; REST_NONE and every value
      outside the enumeration read "NONE". */
  function RestPhaseText(code: int): (s: string)
    ensures s == "NONE" <==> !(1 <= code < 4)
  {
    if code == 1 then "ENTER"
    else if code == 2 then "DEEP"
    else if code == 3 then "WAKE"
    else "NONE"
  }

  /** The brightness column of the Controls screen: index 0 and 1 are "Low"
      and "Mid", every other index reads "High". */
  function BrightnessText(index: int): (s: string)
    ensures s == "High" <==> index != 0 && index != 1
  {
    if index == 0 then "Low" else if index == 1 then "Mid" else "High"
  }

  /** currentIdleSet: the idle sprite set of a life stage, falling back to the
      baby set for a value outside the enumeration. */
  function IdleSet(code: int): (s: Stage)
    ensures 0 <= code < 4 ==> StageCode(s) == code
    ensures !(0 <= code < 4) ==> s == Baby
  {
    if code == 1 then Teen
    else if code == 2 then Adult
    else if code == 3 then Elder
    else Baby
  }

  /** Distinct moods get distinct labels, so the label identifies the mood. */
  lemma MoodTextInjective(a: Mood, b: Mood)
    ensures MoodText(MoodCode(a)) == MoodText(MoodCode(b)) ==> a == b
  {
  }

  /** Distinct life stages get distinct labels. */
  lemma StageTextInjective(a: Stage, b: Stage)
    ensures StageText(StageCode(a)) == StageText(StageCode(b)) ==> a == b
  {
  }

  /** Distinct activities other than ACT_NONE get distinct, non-empty labels,
      and the Home header tells every activity apart. */
  lemma HomeHeaderInjective(a: Activity, b: Activity)
    ensures HomeHeader(ActivityCode(a)) == HomeHeader(ActivityCode(b)) ==> a == b
    ensures a != NoActivity ==> ActivityText(ActivityCode(a)) != ""
  {
  }

  /** The idle sprite set of a stage is that stage's own set. */
  lemma IdleSetOfStage(s: Stage)
    ensures IdleSet(StageCode(s)) == s
  {
  }
}

=== FILE: metrics.dfy ===
/** Integer arithmetic of the display layer: the fill width of a stat bar and
    the hours/minutes/seconds split of the uptime. */
module Metrics {
  import opened Timing

  /** C's `/` on `int`, which truncates toward zero. */
  function TruncDiv(a: int, b: int): (q: int)
    requires b > 0
    ensures a >= 0 ==> 0 <= a - q * b < b
    ensures a < 0 ==> -b < a - q * b <= 0
  {
    if a >= 0 then a / b else -((-a) / b)
  }

  /** drawBar: the filled width `(w - 2) * value / 100` inside a bar of outer
      width `w` for a percentage `value`. */
  function BarFill(w: int, value: int): (fill: int)
    ensures w >= 2 && 0 <= value <= 100 ==> 0 <= fill <= w - 2
    ensures value == 100 ==> fill == w - 2
    ensures value == 0 ==> fill == 0
  {
    TruncDiv((w - 2) * value, 100)
  }

  /** A fuller percentage never draws a shorter bar. */
  lemma BarFillMonotone(w: int, v1: int, v2: int)
    requires w >= 2 && 0 <= v1 <= v2
    ensures BarFill(w, v1) <= BarFill(w, v2)
  {
    MulLe(w - 2, v1, v2);
    assert BarFill(w, v1) == (w - 2) * v1 / 100;
    assert BarFill(w, v2) == (w - 2) * v2 / 100;
    DivMonotone((w - 2) * v1, (w - 2) * v2);
  }

  /** Multiplying by a non-negative factor keeps the order. */
  lemma {:induction false} MulLe(c: nat, v1: nat, v2: nat)
    requires v1 <= v2
    ensures 0 <= c * v1 <= c * v2
    decreases c
  {
    if c > 0 {
      MulLe(c - 1, v1, v2);
      assert c * v1 == (c - 1) * v1 + v1;
      assert c * v2 == (c - 1) * v2 + v2;
    }
  }

  lemma DivMonotone(a: int, b: int)
    requires 0 <= a <= b
    ensures a / 100 <= b / 100
  {
  }

  /** Hours, minutes and seconds shown on the System Info screen. */
  datatype Clock = Clock(h: nat, m: nat, s: nat)

  /** The uptime split of screenSysInfo: whole seconds of the 32-bit clock,
      cut into hours, minutes below 60 and seconds below 60. */
  function UptimeSplit(ms: Millis): (c: Clock)
    ensures c.m < 60 && c.s < 60
    ensures c.h * 3600 + c.m * 60 + c.s == ms / 1000
    ensures c.h <= 1193
  {
    var s := ms / 1000;
    var m := s / 60;
    var h := m / 60;
    Clock(h, m % 60, s % 60)
  }

  /** The split is the only one: any hours/minutes/seconds triple with minutes
      and seconds below 60 is what the split of its own uptime shows. */
  lemma UptimeSplitUnique(c: Clock, extra: nat)
    requires c.m < 60 && c.s < 60 && extra < 1000
    requires (c.h * 3600 + c.m * 60 + c.s) * 1000 + extra < WRAP
    ensures UptimeSplit((c.h * 3600 + c.m * 60 + c.s) * 1000 + extra) == c
  {
    var total := c.h * 3600 + c.m * 60 + c.s;
    var ms := total * 1000 + extra;
    assert ms / 1000 == total;
    assert total / 60 == c.h * 60 + c.m;
    assert (c.h * 60 + c.m) / 60 == c.h;
  }
}

=== FILE: screens.dfy ===
/** The state logic of the display layer as values: the UI's private state
    (frame counters, timestamps, highlight triples) together with the host
    flags the UI writes, and one step function per public operation and per
    renderer that changes state.  The class in module Ui is proved to follow
    these step functions; the lemmas below state what the steps promise. */
module Screens {
  import opened Timing
  import opened Enums
  import opened Labels
  import opened Counters
  import opened Easer

  /** The host globals the display layer reads during one tick. */
  datatype Host = Host(
    activity: Activity,
    restPhase: RestPhase,
    restFrameIndex: int,
    mood: Mood,
    stage: Stage,
    hungerEffectActive: bool,
    hungerEffectFrame: int,
    mainMenuIndex: int,
    controlsIndex: int,
    settingsMenuIndex: int)

  /** The UI's private state and the three host flags it writes. */
  datatype UiModel = UiModel(
    hunt: Counter,
    idle: Counter,
    eggIdle: Counter,
    hatch: Counter,
    dead: Counter,
    menu: Cursor,
    controls: Cursor,
    settings: Cursor,
    hasHatchedOnce: bool,
    hatchTriggered: bool,
    screen: Screen)

  /** Every frame index stays inside its sprite table:
      ATTACK_FRAMES[3], idle sets [4], EGG_IDLE_FRAMES[4], EGG_FRAMES[5],
      DEAD_FRAMES[3]. */
  predicate FramesInRange(m: UiModel)
  {
    0 <= m.hunt.frame < 3 && 0 <= m.idle.frame < 4 && 0 <= m.eggIdle.frame < 4 &&
    0 <= m.hatch.frame <= 4 && 0 <= m.dead.frame <= 2
  }

  /** The sprite frame a renderer pushes, by the table it is taken from. */
  datatype Sprite =
    | EggIdleSprite(index: int)
    | EggSprite(index: int)
    | AttackSprite(index: int)
    | IdleSprite(stage: Stage, index: int)
    | DeadSprite(index: int)

  predicate InTable(s: Sprite)
  {
    match s
    case EggIdleSprite(i) => 0 <= i < 4
    case EggSprite(i) => 0 <= i < 5
    case AttackSprite(i) => 0 <= i < 3
    case IdleSprite(_, i) => 0 <= i < 4
    case DeadSprite(i) => 0 <= i < 3
  }

  datatype Overlay = NoOverlay | HungerOverlay(frame: int)

  /** What a tick puts on the display, as far as it depends on the state:
      a header with a pet sprite, or a list menu's highlight position and
      highlighted row; Nothing when no animated content is pushed. */
  datatype Shown =
    | Nothing
    | PetView(header: string, sprite: Sprite, overlay: Overlay)
    | ListView(highlightY: int, selected: int)

  predicate ShownInTable(s: Shown)
  {
    s.PetView? ==> InTable(s.sprite)
  }

  /** The result of one step: the new state, what is shown and whether the
      hatch sound was requested. */
  datatype Outcome = Outcome(next: UiModel, shown: Shown, cue: bool)

  /** Which renderer the dispatcher runs; the list menus carry the row they
      draw in yellow. */
  datatype Renderer =
    | BootPage | HatchPage | HomePage | MenuPage(selected: int) | PetStatusPage
    | EnvironmentPage | SysInfoPage | ControlsPage(selected: int)
    | SettingsPage(selected: int) | DiagnosticsPage | GameOverPage

  /** The screen a renderer belongs to. */
  function PageScreen(r: Renderer): Screen
  {
    match r
    case BootPage => Boot
    case HatchPage => Hatch
    case HomePage => Home
    case MenuPage(_) => Menu
    case PetStatusPage => PetStatus
    case EnvironmentPage => Environment
    case SysInfoPage => SysInfo
    case ControlsPage(_) => Controls
    case SettingsPage(_) => Settings
    case DiagnosticsPage => Diagnostics
    case GameOverPage => GameOver
  }

  /** The switch of uiDrawScreen: each screen runs its own renderer, and the
      list menus highlight the row passed in the call. */
  function Dispatch(screen: Screen, mainMenuIdx: int, controlsIdx: int, settingsIdx: int): (r: Renderer)
    ensures PageScreen(r) == screen
    ensures r.MenuPage? ==> r.selected == mainMenuIdx
    ensures r.ControlsPage? ==> r.selected == controlsIdx
    ensures r.SettingsPage? ==> r.selected == settingsIdx
  {
    match screen
    case Boot => BootPage
    case Hatch => HatchPage
    case Home => HomePage
    case Menu => MenuPage(mainMenuIdx)
    case PetStatus => PetStatusPage
    case Environment => EnvironmentPage
    case SysInfo => SysInfoPage
    case Controls => ControlsPage(controlsIdx)
    case Settings => SettingsPage(settingsIdx)
    case Diagnostics => DiagnosticsPage
    case GameOver => GameOverPage
  }

  /** The values the static variables start with; the three host flags are
      whatever the host holds. */
  function Initial(hasHatchedOnce: bool, hatchTriggered: bool, screen: Screen): (m: UiModel)
    ensures FramesInRange(m)
  {
    UiModel(Counter(0, 0), Counter(0, 0), Counter(0, 0), Counter(0, 0), Counter(0, 0),
            Cursor(30, 30, 0), Cursor(30, 30, 0), Cursor(30, 30, 0),
            hasHatchedOnce, hatchTriggered, screen)
  }

  /** calcHighlightY: the highlight's top for a row, 5 pixels above the text. */
  function CalcHighlightY(rowIndex: int, rowHeight: int, topOffset: int): (y: int)
    ensures rowIndex == 0 ==> y == topOffset - 5
    ensures rowIndex >= 0 && rowHeight >= 0 ==> y >= topOffset - 5
  {
    topOffset + rowIndex * rowHeight - 5
  }

  /** Row highlights are spaced one row height apart, so rows further down
      get highlights further down and no two rows share one. */
  lemma HighlightRowsSpaced(i: int, j: int, rowHeight: int, topOffset: int)
    ensures CalcHighlightY(j, rowHeight, topOffset) - CalcHighlightY(i, rowHeight, topOffset) == (j - i) * rowHeight
    ensures i < j && rowHeight > 0 ==> CalcHighlightY(i, rowHeight, topOffset) < CalcHighlightY(j, rowHeight, topOffset)
  {
    assert (j - i) * rowHeight == j * rowHeight - i * rowHeight;
    if i < j && rowHeight > 0 {
      MulPos(j - i, rowHeight);
    }
  }

  lemma {:induction false} MulPos(a: nat, b: int)
    requires a >= 1 && b > 0
    ensures a * b > 0
    decreases a
  {
    if a > 1 {
      MulPos(a - 1, b);
      assert a * b == (a - 1) * b + b;
    }
  }

  /** uiInit: the idle, egg-idle, hatch and death counters restart at frame 0,
      stamped with the clock; the hunt counter and the highlights are kept. */
  function InitStep(m: UiModel, now: Millis): (r: UiModel)
    ensures r.idle == r.eggIdle == r.hatch == r.dead == Counter(0, now)
    ensures r.(idle := m.idle, eggIdle := m.eggIdle, hatch := m.hatch, dead := m.dead) == m
    ensures FramesInRange(r) <==> 0 <= m.hunt.frame < 3
  {
    m.(idle := Counter(0, now), eggIdle := Counter(0, now),
       hatch := Counter(0, now), dead := Counter(0, now))
  }

  /** uiOnScreenChange: entering a list menu snaps its highlight onto the row
      the host has selected; entering the Hatch screen rewinds the egg-idle and
      hatch frames. */
  function ScreenChangeStep(m: UiModel, s: Screen, host: Host): (r: UiModel)
    ensures FramesInRange(m) ==> FramesInRange(r)
  {
    match s
    case Menu =>
      var v := CalcHighlightY(host.mainMenuIndex, 20, 30);
      m.(menu := m.menu.(y := v, targetY := v))
    case Controls =>
      var v := CalcHighlightY(host.controlsIndex, 20, 30);
      m.(controls := m.controls.(y := v, targetY := v))
    case Settings =>
      var v := CalcHighlightY(host.settingsMenuIndex, 18, 30);
      m.(settings := m.settings.(y := v, targetY := v))
    case Hatch =>
      m.(eggIdle := m.eggIdle.(frame := 0), hatch := m.hatch.(frame := 0))
    case _ => m
  }

  /** The first half of uiDrawScreen: the highlight target of the screen being
      drawn follows the selected row.  Controls and Settings aim 4 pixels
      higher than on entry; Settings takes the host's global settingsMenuIndex,
      not the index passed to uiDrawScreen. */
  function SetTargets(m: UiModel, screen: Screen, mainMenuIdx: int, controlsIdx: int, settingsMenuIndex: int): (t: UiModel)
    ensures t.(menu := m.menu, controls := m.controls, settings := m.settings) == m
    ensures t.menu.y == m.menu.y && t.menu.lastTick == m.menu.lastTick
    ensures t.controls.y == m.controls.y && t.controls.lastTick == m.controls.lastTick
    ensures t.settings.y == m.settings.y && t.settings.lastTick == m.settings.lastTick
    ensures screen == Menu ==> t.menu.targetY == CalcHighlightY(mainMenuIdx, 20, 30)
    ensures screen == Controls ==> t.controls.targetY == CalcHighlightY(controlsIdx, 20, 30) - 4
    ensures screen == Settings ==> t.settings.targetY == CalcHighlightY(settingsMenuIndex, 18, 30) - 4
    ensures screen != Menu ==> t.menu == m.menu
    ensures screen != Controls ==> t.controls == m.controls
    ensures screen != Settings ==> t.settings == m.settings
  {
    if screen == Menu then m.(menu := m.menu.(targetY := CalcHighlightY(mainMenuIdx, 20, 30)))
    else if screen == Controls then m.(controls := m.controls.(targetY := CalcHighlightY(controlsIdx, 20, 30) - 4))
    else if screen == Settings then m.(settings := m.settings.(targetY := CalcHighlightY(settingsMenuIndex, 18, 30) - 4))
    else m
  }

  const HATCH_HEADER: string := "Hatching..."
  const GAME_OVER_HEADER: string := "Game Over"

  /** screenHatch: the egg idles until the host triggers the hatch; the hatch
      then plays frames 0..4, one per HATCH_DELAY, and the next due tick at
      frame 4 finishes it and moves to Home.  The hatch sound is requested on
      every call made while the hatch frame is 0.  A call after the pet has
      hatched falls back to Home. */
  function HatchStep(m: UiModel, host: Host, now: Millis): (r: Outcome)
    ensures FramesInRange(m) ==> FramesInRange(r.next) && ShownInTable(r.shown)
    ensures r.cue <==> !m.hasHatchedOnce && m.hatchTriggered && m.hatch.frame == 0
    ensures !m.hasHatchedOnce && m.hatchTriggered && !Due(now, m.hatch.last, HATCH_DELAY) ==> r.next == m
    ensures !m.hasHatchedOnce && m.hatchTriggered && Due(now, m.hatch.last, HATCH_DELAY) && m.hatch.frame < 4 ==>
              r.next == m.(hatch := Counter(m.hatch.frame + 1, now))
  {
    if !m.hasHatchedOnce && !m.hatchTriggered then
      var e := CyclicStep(m.eggIdle, now, EGG_IDLE_DELAY, 4);
      Outcome(m.(eggIdle := e), PetView(HATCH_HEADER, EggIdleSprite(e.frame), NoOverlay), false)
    else if !m.hasHatchedOnce && m.hatchTriggered then
      var cue := m.hatch.frame == 0;
      if Due(now, m.hatch.last, HATCH_DELAY) then
        if m.hatch.frame < 4 then
          var h := Counter(m.hatch.frame + 1, now);
          Outcome(m.(hatch := h), PetView(HATCH_HEADER, EggSprite(h.frame), NoOverlay), cue)
        else
          var done := m.(hasHatchedOnce := true, hatchTriggered := false,
                         hatch := Counter(0, now), screen := Home);
          Outcome(ScreenChangeStep(done, Home, host), Nothing, cue)
      else
        Outcome(m, PetView(HATCH_HEADER, EggSprite(m.hatch.frame), NoOverlay), cue)
    else
      Outcome(ScreenChangeStep(m.(screen := Home), Home, host), Nothing, false)
  }

  /** The idle animation's pace on the Home screen, chosen by mood. */
  function IdleDelay(mood: Mood): (d: nat)
    ensures mood == Excited ==> d == 120
    ensures mood == Bored || mood == Sick ==> d == 280
    ensures mood != Excited && mood != Bored && mood != Sick ==> d == 200
  {
    var speed := IDLE_BASE_DELAY;
    var speed := if mood == Excited then IDLE_FAST_DELAY else speed;
    if mood == Bored || mood == Sick then IDLE_SLOW_DELAY else speed
  }

  /** The animation the Home screen plays: resting wins over hunting, and
      hunting over idling. */
  datatype HomeAnim = RestAnim | HuntAnim | IdleAnim

  function HomeAnimation(a: Activity, p: RestPhase): (r: HomeAnim)
    ensures r == RestAnim <==> a == Rest && p != RestNone
    ensures r == HuntAnim <==> a == Hunt
  {
    if a == Rest && p != RestNone then RestAnim
    else if a == Hunt then HuntAnim
    else IdleAnim
  }

  /** Arduino's constrain. */
  function Constrain(x: int, lo: int, hi: int): int
  {
    if x < lo then lo else if x > hi then hi else x
  }

  /** The egg frame shown while resting: going to sleep counts down from 4,
      deep sleep holds frame 0, waking counts up to 4. */
  function RestFrame(p: RestPhase, k: int): (f: int)
    ensures 0 <= f <= 4
  {
    if p == RestEnter then 4 - Constrain(k, 0, 4)
    else if p == RestDeep then 0
    else if p == RestWake then Constrain(k, 0, 4)
    else 0
  }

  /** screenHome: the rest animation only reads the host's rest phase and
      counter; the hunt and idle animations advance their own counters; the
      hunger overlay, read from the host, is drawn over the idle animation
      only. */
  function HomeStep(m: UiModel, host: Host, now: Millis): (r: Outcome)
    ensures FramesInRange(m) ==> FramesInRange(r.next) && ShownInTable(r.shown)
  {
    var header := HomeHeader(ActivityCode(host.activity));
    match HomeAnimation(host.activity, host.restPhase)
    case RestAnim =>
      Outcome(m, PetView(header, EggSprite(RestFrame(host.restPhase, host.restFrameIndex)), NoOverlay), false)
    case HuntAnim =>
      var h := CyclicStep(m.hunt, now, HUNT_FRAME_DELAY, 3);
      Outcome(m.(hunt := h), PetView(header, AttackSprite(h.frame), NoOverlay), false)
    case IdleAnim =>
      var i := CyclicStep(m.idle, now, IdleDelay(host.mood), 4);
      var overlay := if host.hungerEffectActive then HungerOverlay(host.hungerEffectFrame) else NoOverlay;
      Outcome(m.(idle := i), PetView(header, IdleSprite(IdleSet(StageCode(host.stage)), i.frame), overlay), false)
  }

  /** screenGameOver: the death frame steps once per DEAD_DELAY and stops at
      frame 2. */
  function GameOverStep(m: UiModel, now: Millis): (r: Outcome)
    ensures FramesInRange(m) ==> FramesInRange(r.next) && ShownInTable(r.shown)
  {
    var d := ClampedStep(m.dead, now, DEAD_DELAY, 2);
    Outcome(m.(dead := d), PetView(GAME_OVER_HEADER, DeadSprite(d.frame), NoOverlay), false)
  }

  /** screenMenu, screenControls, screenSettings: ease the menu's highlight. */
  function MenuStep(m: UiModel, selected: int, now: Millis): (r: Outcome)
    ensures r.next.(menu := m.menu) == m
    ensures r.next.menu == EaseTick(m.menu, now)
    ensures r.shown == ListView(r.next.menu.y, selected) && !r.cue
    ensures FramesInRange(m) ==> FramesInRange(r.next)
  {
    var c := EaseTick(m.menu, now);
    Outcome(m.(menu := c), ListView(c.y, selected), false)
  }

  function ControlsStep(m: UiModel, selected: int, now: Millis): (r: Outcome)
    ensures r.next.(controls := m.controls) == m
    ensures r.next.controls == EaseTick(m.controls, now)
    ensures r.shown == ListView(r.next.controls.y, selected) && !r.cue
    ensures FramesInRange(m) ==> FramesInRange(r.next)
  {
    var c := EaseTick(m.controls, now);
    Outcome(m.(controls := c), ListView(c.y, selected), false)
  }

  function SettingsStep(m: UiModel, selected: int, now: Millis): (r: Outcome)
    ensures r.next.(settings := m.settings) == m
    ensures r.next.settings == EaseTick(m.settings, now)
    ensures r.shown == ListView(r.next.settings.y, selected) && !r.cue
    ensures FramesInRange(m) ==> FramesInRange(r.next)
  {
    var c := EaseTick(m.settings, now);
    Outcome(m.(settings := c), ListView(c.y, selected), false)
  }

  /** uiDrawScreen: set the highlight target of a list menu, then run the
      screen's renderer. */
  function DrawStep(m: UiModel, screen: Screen, mainMenuIdx: int, controlsIdx: int, settingsIdx: int,
                    host: Host, now: Millis): (r: Outcome)
    ensures FramesInRange(m) ==> FramesInRange(r.next) && ShownInTable(r.shown)
  {
    var t := SetTargets(m, screen, mainMenuIdx, controlsIdx, host.settingsMenuIndex);
    match Dispatch(screen, mainMenuIdx, controlsIdx, settingsIdx)
    case HatchPage => HatchStep(t, host, now)
    case HomePage => HomeStep(t, host, now)
    case MenuPage(i) => MenuStep(t, i, now)
    case ControlsPage(i) => ControlsStep(t, i, now)
    case SettingsPage(i) => SettingsStep(t, i, now)
    case GameOverPage => GameOverStep(t, now)
    case _ => Outcome(t, Nothing, false)
  }

  // ---------------------------------------------------------------------
  // The hatch sequence
  // ---------------------------------------------------------------------

  /** The state after screenHatch runs at each reading of `nows`. */
  function RunHatch(m: UiModel, host: Host, nows: seq<Millis>): UiModel
    decreases |nows|
  {
    if |nows| == 0 then m else RunHatch(HatchStep(m, host, nows[0]).next, host, nows[1..])
  }

  /** How many hatch-sound requests those calls make. */
  function HatchCues(m: UiModel, host: Host, nows: seq<Millis>): nat
    decreases |nows|
  {
    if |nows| == 0 then 0
    else
      var r := HatchStep(m, host, nows[0]);
      (if r.cue then 1 else 0) + HatchCues(r.next, host, nows[1..])
  }

  /** Before the trigger, the Hatch screen only loops the egg-idle frames:
      nothing else changes and no sound is requested. */
  lemma {:induction false} EggIdleLoop(m: UiModel, host: Host, nows: seq<Millis>)
    requires !m.hasHatchedOnce && !m.hatchTriggered
    ensures RunHatch(m, host, nows) == m.(eggIdle := RunCyclic(m.eggIdle, nows, EGG_IDLE_DELAY, 4))
    ensures HatchCues(m, host, nows) == 0
    decreases |nows|
  {
    if |nows| > 0 {
      var e := CyclicStep(m.eggIdle, nows[0], EGG_IDLE_DELAY, 4);
      EggIdleLoop(m.(eggIdle := e), host, nows[1..]);
    }
  }

  /** After the trigger each due tick raises the hatch frame by one, while the
      frame stays at most 4; only the first call, at frame 0, asks for the
      sound. */
  lemma {:induction false} HatchAdvances(m: UiModel, host: Host, nows: seq<Millis>)
    requires !m.hasHatchedOnce && m.hatchTriggered
    requires 0 <= m.hatch.frame && m.hatch.frame + |nows| <= 4
    requires AllDue(m.hatch.last, nows, HATCH_DELAY)
    ensures var r := RunHatch(m, host, nows);
            !r.hasHatchedOnce && r.hatchTriggered && r.screen == m.screen &&
            r.hatch.frame == m.hatch.frame + |nows| && r.eggIdle == m.eggIdle
    ensures HatchCues(m, host, nows) == if m.hatch.frame == 0 && |nows| > 0 then 1 else 0
    decreases |nows|
  {
    if |nows| > 0 {
      var m' := m.(hatch := Counter(m.hatch.frame + 1, nows[0]));
      assert HatchStep(m, host, nows[0]).next == m';
      HatchAdvances(m', host, nows[1..]);
    }
  }

  /** The due tick after frame 4 finishes the hatch: the pet has hatched, the
      trigger is consumed, the frame is back at 0 and the screen is Home. */
  lemma {:induction false} HatchCompletes(m: UiModel, host: Host, nows: seq<Millis>)
    requires !m.hasHatchedOnce && m.hatchTriggered
    requires 0 <= m.hatch.frame <= 4 && |nows| == 5 - m.hatch.frame
    requires AllDue(m.hatch.last, nows, HATCH_DELAY)
    ensures var r := RunHatch(m, host, nows);
            r.hasHatchedOnce && !r.hatchTriggered && r.hatch.frame == 0 && r.screen == Home
    ensures HatchCues(m, host, nows) == if m.hatch.frame == 0 then 1 else 0
    decreases |nows|
  {
    if m.hatch.frame < 4 {
      var m' := m.(hatch := Counter(m.hatch.frame + 1, nows[0]));
      assert HatchStep(m, host, nows[0]).next == m';
      HatchCompletes(m', host, nows[1..]);
    } else {
      assert nows[1..] == [];
    }
  }

  /** After the trigger, calls at any pace only delay the hatch: the frame is
      as many steps ahead as calls fired, the hatch counter holds the stamp of
      the last fired call, and nothing else changes. */
  lemma {:induction false} HatchRunFires(m: UiModel, host: Host, nows: seq<Millis>)
    requires !m.hasHatchedOnce && m.hatchTriggered
    requires 0 <= m.hatch.frame && m.hatch.frame + Fires(m.hatch.last, nows, HATCH_DELAY) <= 4
    ensures RunHatch(m, host, nows) ==
            m.(hatch := Counter(m.hatch.frame + Fires(m.hatch.last, nows, HATCH_DELAY),
                                Stamp(m.hatch.last, nows, HATCH_DELAY)))
    decreases |nows|
  {
    if |nows| > 0 {
      if Due(nows[0], m.hatch.last, HATCH_DELAY) {
        var m' := m.(hatch := Counter(m.hatch.frame + 1, nows[0]));
        assert HatchStep(m, host, nows[0]).next == m';
        HatchRunFires(m', host, nows[1..]);
      } else {
        assert HatchStep(m, host, nows[0]).next == m;
        HatchRunFires(m, host, nows[1..]);
      }
    }
  }

  /** Once hatched, any further calls keep the pet hatched, the trigger clear,
      the hatch frame put and the screen on Home. */
  lemma {:induction false} HatchedStays(m: UiModel, host: Host, nows: seq<Millis>)
    requires m.hasHatchedOnce && !m.hatchTriggered && m.hatch.frame == 0 && m.screen == Home
    ensures var r := RunHatch(m, host, nows);
            r.hasHatchedOnce && !r.hatchTriggered && r.hatch.frame == 0 && r.screen == Home
    decreases |nows|
  {
    if |nows| > 0 {
      HatchedFallsBack(m, host, nows[0]);
      HatchedStays(HatchStep(m, host, nows[0]).next, host, nows[1..]);
    }
  }

  /** After the trigger, calls at any pace finish the hatch once enough of
      them have fired: the fired call that finds frame 4 completes it, and the
      pet stays hatched, on Home, through every later call. */
  lemma {:induction false} HatchRunCompletes(m: UiModel, host: Host, nows: seq<Millis>)
    requires !m.hasHatchedOnce && m.hatchTriggered
    requires 0 <= m.hatch.frame <= 4 && Fires(m.hatch.last, nows, HATCH_DELAY) >= 5 - m.hatch.frame
    ensures var r := RunHatch(m, host, nows);
            r.hasHatchedOnce && !r.hatchTriggered && r.hatch.frame == 0 && r.screen == Home
    decreases |nows|
  {
    var r := HatchStep(m, host, nows[0]);
    if !Due(nows[0], m.hatch.last, HATCH_DELAY) {
      HatchRunCompletes(m, host, nows[1..]);
    } else if m.hatch.frame < 4 {
      HatchRunCompletes(r.next, host, nows[1..]);
    } else {
      HatchedStays(r.next, host, nows[1..]);
    }
  }

  /** The whole sequence from the trigger: frames 1, 2, 3, 4 on the first four
      due ticks, the fifth finishes on Home, and with every call due exactly
      one hatch sound is requested. */
  lemma HatchSequence(m: UiModel, host: Host, nows: seq<Millis>)
    requires !m.hasHatchedOnce && m.hatchTriggered && m.hatch.frame == 0
    requires |nows| == 5 && AllDue(m.hatch.last, nows, HATCH_DELAY)
    ensures forall k :: 1 <= k <= 4 ==>
              RunHatch(m, host, nows[..k]).hatch.frame == k &&
              !RunHatch(m, host, nows[..k]).hasHatchedOnce
    ensures var r := RunHatch(m, host, nows);
            r.hasHatchedOnce && !r.hatchTriggered && r.hatch.frame == 0 && r.screen == Home
    ensures HatchCues(m, host, nows) == 1
  {
    forall k | 1 <= k <= 4
      ensures RunHatch(m, host, nows[..k]).hatch.frame == k
      ensures !RunHatch(m, host, nows[..k]).hasHatchedOnce
    {
      AllDuePrefix(m.hatch.last, nows, HATCH_DELAY, k);
      HatchAdvances(m, host, nows[..k]);
    }
    HatchCompletes(m, host, nows);
  }

  /** The sound is requested again on every call made while the first hatch
      frame is not yet due: `k` such calls make `k` requests. */
  lemma {:induction false} HatchCueRepeats(m: UiModel, host: Host, nows: seq<Millis>)
    requires !m.hasHatchedOnce && m.hatchTriggered && m.hatch.frame == 0
    requires forall i :: 0 <= i < |nows| ==> !Due(nows[i], m.hatch.last, HATCH_DELAY)
    ensures HatchCues(m, host, nows) == |nows|
    decreases |nows|
  {
    if |nows| > 0 {
      assert HatchStep(m, host, nows[0]).next == m;
      HatchCueRepeats(m, host, nows[1..]);
    }
  }

  /** Once hatched, the Hatch screen sends the display Home and changes
      nothing else. */
  lemma HatchedFallsBack(m: UiModel, host: Host, now: Millis)
    requires m.hasHatchedOnce
    ensures HatchStep(m, host, now) == Outcome(m.(screen := Home), Nothing, false)
  {
  }

  /** No operation of the display layer undoes a hatch. */
  lemma HatchIsFinal(m: UiModel, screen: Screen, mainMenuIdx: int, controlsIdx: int, settingsIdx: int,
                     host: Host, now: Millis)
    requires m.hasHatchedOnce
    ensures DrawStep(m, screen, mainMenuIdx, controlsIdx, settingsIdx, host, now).next.hasHatchedOnce
    ensures ScreenChangeStep(m, screen, host).hasHatchedOnce
    ensures InitStep(m, now).hasHatchedOnce
  {
  }

  // ---------------------------------------------------------------------
  // The Home screen
  // ---------------------------------------------------------------------

  /** A Home tick touches only the counter of the animation it plays: resting
      changes nothing, hunting only the hunt counter, idling only the idle
      counter. */
  lemma HomeTouchesOneCounter(m: UiModel, host: Host, now: Millis)
    ensures var r := HomeStep(m, host, now).next;
            r.(hunt := m.hunt, idle := m.idle) == m &&
            (r.hunt != m.hunt ==> HomeAnimation(host.activity, host.restPhase) == HuntAnim) &&
            (r.idle != m.idle ==> HomeAnimation(host.activity, host.restPhase) == IdleAnim)
  {
  }

  /** The idle frame of a Home tick taken `d` milliseconds after the idle
      counter's last advance moves exactly when `d` reaches the mood's delay,
      also across a wrap of the clock. */
  lemma IdleCadence(m: UiModel, host: Host, d: nat)
    requires FramesInRange(m) && d < WRAP
    requires HomeAnimation(host.activity, host.restPhase) == IdleAnim
    ensures var r := HomeStep(m, host, After(m.idle.last, d)).next;
            r.idle.frame != m.idle.frame <==> d >= IdleDelay(host.mood)
  {
    ElapsedAfter(m.idle.last, d);
  }

  /** The resting frames mirror each other: going to sleep and waking up
      show complementary frames for the same counter. */
  lemma RestEnterWakeMirror(k: int)
    ensures RestFrame(RestEnter, k) + RestFrame(RestWake, k) == 4
  {
  }

  /** Going to sleep counts the frame down and waking counts it up. */
  lemma RestFrameDirection(k1: int, k2: int)
    requires k1 <= k2
    ensures RestFrame(RestEnter, k2) <= RestFrame(RestEnter, k1)
    ensures RestFrame(RestWake, k1) <= RestFrame(RestWake, k2)
  {
  }

  // ---------------------------------------------------------------------
  // The death animation
  // ---------------------------------------------------------------------

  /** Only uiInit rewinds the death frame: every other operation keeps it or,
      on the Game Over screen, moves it up, never past frame 2. */
  lemma DeathFrameOnlyRises(m: UiModel, screen: Screen, mainMenuIdx: int, controlsIdx: int, settingsIdx: int,
                            host: Host, now: Millis)
    requires FramesInRange(m)
    ensures var d := DrawStep(m, screen, mainMenuIdx, controlsIdx, settingsIdx, host, now).next.dead.frame;
            m.dead.frame <= d <= 2
    ensures ScreenChangeStep(m, screen, host).dead == m.dead
    ensures InitStep(m, now).dead.frame == 0
  {
  }

  // ---------------------------------------------------------------------
  // The highlight protocol
  // ---------------------------------------------------------------------

  /** Entering a list menu shows its highlight at once on the selected row:
      position and target are equal, and nothing but that highlight changes
      (on the Hatch screen, only the two egg frames are rewound). */
  lemma EnterSnaps(m: UiModel, s: Screen, host: Host)
    ensures var r := ScreenChangeStep(m, s, host);
            (s == Menu ==> r.menu.y == r.menu.targetY == CalcHighlightY(host.mainMenuIndex, 20, 30) &&
                           r.(menu := m.menu) == m && r.menu.lastTick == m.menu.lastTick) &&
            (s == Controls ==> r.controls.y == r.controls.targetY == CalcHighlightY(host.controlsIndex, 20, 30) &&
                               r.(controls := m.controls) == m && r.controls.lastTick == m.controls.lastTick) &&
            (s == Settings ==> r.settings.y == r.settings.targetY == CalcHighlightY(host.settingsMenuIndex, 18, 30) &&
                               r.(settings := m.settings) == m && r.settings.lastTick == m.settings.lastTick) &&
            (s == Hatch ==> r == m.(eggIdle := m.eggIdle.(frame := 0), hatch := m.hatch.(frame := 0))) &&
            (s !in {Menu, Controls, Settings, Hatch} ==> r == m)
  {
  }

  /** Entering the main menu and drawing it on the same row leaves the
      highlight still; entering Controls or Settings and drawing the same row
      leaves a 4-pixel slide, which the easer covers in two due ticks. */
  lemma EnterThenDraw(m: UiModel, host: Host, mainMenuIdx: int, controlsIdx: int, settingsIdx: int, now: Millis)
    ensures var e := ScreenChangeStep(m, Menu, host);
            var r := DrawStep(e, Menu, host.mainMenuIndex, controlsIdx, settingsIdx, host, now).next;
            r.menu.y == r.menu.targetY == CalcHighlightY(host.mainMenuIndex, 20, 30)
    ensures var v := CalcHighlightY(host.controlsIndex, 20, 30);
            var e := ScreenChangeStep(m, Controls, host);
            var r := DrawStep(e, Controls, mainMenuIdx, host.controlsIndex, settingsIdx, host, now).next;
            r.controls.targetY == v - 4 && r.controls.y in {v, v - 3} && TicksToTarget(v, v - 4) == 2
    ensures var v := CalcHighlightY(host.settingsMenuIndex, 18, 30);
            var e := ScreenChangeStep(m, Settings, host);
            var r := DrawStep(e, Settings, mainMenuIdx, controlsIdx, settingsIdx, host, now).next;
            r.settings.targetY == v - 4 && r.settings.y in {v, v - 3}
  {
  }
}

=== FILE: timing.dfy ===
/** The millisecond clock of the ESP32 and the animation pacing constants.

    Every animation in the display layer is gated by `now - last >= delay`, where
    `now` and `last` are `unsigned long` readings of `millis()`.  On the ESP32
    that type is 32 bits wide, so the subtraction is taken modulo 2^32 and the
    gate keeps working when the clock wraps after about 49.7 days.
 */
module Timing {

  /** Modulus of the 32-bit `unsigned long` clock. */
  const WRAP: int := 0x1_0000_0000

  /** A reading of the 32-bit millisecond clock. */
  type Millis = x: int | 0 <= x < 0x1_0000_0000

  // Pacing constants of the animations (ui_anim.h, and HUNT_FRAME_DELAY of ui.cpp).
  const EGG_IDLE_DELAY: nat := 350
  const HATCH_DELAY: nat := 300
  const IDLE_BASE_DELAY: nat := 200
  const IDLE_FAST_DELAY: nat := 120
  const IDLE_SLOW_DELAY: nat := 280
  const DEAD_DELAY: nat := 300
  const MENU_ANIM_INTERVAL: nat := 16
  const MENU_ANIM_STEP: nat := 3
  const HUNT_FRAME_DELAY: nat := 300

  /** `now - last` computed on 32-bit unsigned integers. */
  function Elapsed(now: Millis, last: Millis): (d: Millis)
    ensures last <= now ==> d == now - last
    ensures now < last ==> d == now - last + WRAP
  {
    (now - last) % WRAP
  }

  /** The gate `now - last >= delay` of every timer in the display layer. */
  predicate Due(now: Millis, last: Millis, delay: nat)
  {
    Elapsed(now, last) >= delay
  }

  /** The clock reading taken `d` milliseconds after `last`, wrapping at 2^32. */
  function After(last: Millis, d: nat): Millis
  {
    (last + d) % WRAP
  }

  /** The wrapped subtraction measures true elapsed time, also across the
      wrap of the clock, for any interval shorter than one clock period. */
  lemma ElapsedAfter(last: Millis, d: nat)
    requires d < WRAP
    ensures Elapsed(After(last, d), last) == d
  {
  }

  /** Every call in `nows` finds its timer due, the timer having been stamped
      with `last` before the first call and with each due call's own reading
      afterwards. */
  predicate AllDue(last: Millis, nows: seq<Millis>, delay: nat)
    decreases |nows|
  {
    |nows| == 0 || (Due(nows[0], last, delay) && AllDue(nows[0], nows[1..], delay))
  }

  /** How many of the calls in `nows` find a timer stamped at `last` due; a due
      call re-stamps the timer with its own reading. */
  function Fires(last: Millis, nows: seq<Millis>, delay: nat): (k: nat)
    ensures k <= |nows|
    decreases |nows|
  {
    if |nows| == 0 then 0
    else if Due(nows[0], last, delay) then 1 + Fires(nows[0], nows[1..], delay)
    else Fires(last, nows[1..], delay)
  }

  /** The timestamp a timer stamped at `last` holds after the calls in `nows`. */
  function Stamp(last: Millis, nows: seq<Millis>, delay: nat): Millis
    decreases |nows|
  {
    if |nows| == 0 then last
    else if Due(nows[0], last, delay) then Stamp(nows[0], nows[1..], delay)
    else Stamp(last, nows[1..], delay)
  }

  /** When every call is due, every call fires and the last reading is kept. */
  lemma {:induction false} AllDueFires(last: Millis, nows: seq<Millis>, delay: nat)
    requires AllDue(last, nows, delay)
    ensures Fires(last, nows, delay) == |nows|
    ensures |nows| > 0 ==> Stamp(last, nows, delay) == nows[|nows| - 1]
    decreases |nows|
  {
    if |nows| > 0 {
      AllDueFires(nows[0], nows[1..], delay);
    }
  }

  /** Every prefix of a series of due calls is itself a series of due calls. */
  lemma {:induction false} AllDuePrefix(last: Millis, nows: seq<Millis>, delay: nat, k: nat)
    requires AllDue(last, nows, delay) && k <= |nows|
    ensures AllDue(last, nows[..k], delay)
    decreases k
  {
    if k > 0 {
      assert nows[..k][0] == nows[0];
      assert nows[..k][1..] == nows[1..][..k - 1];
      AllDuePrefix(nows[0], nows[1..], delay, k - 1);
    }
  }
}

=== FILE: ui.dfy ===
/** The display layer's state as one object: the static frame counters,
    timestamps and highlights of ui.cpp, and the host flags it writes.  Each
    method follows the code of its C function and is proved to move the
    state exactly as the matching step function of module Screens says. */
module Ui {
  import opened Timing
  import opened Enums
  import opened Labels
  import opened Counters
  import opened Easer
  import opened Screens

  class UiState {
    // Frame counters and the clock readings of their last advance.
    var huntFrame: int
    var lastHuntFrameTime: Millis
    var idleFrameUi: int
    var lastIdleFrameUi: Millis
    var eggIdleFrameUi: int
    var lastEggIdleTimeUi: Millis
    var hatchFrameUi: int
    var lastHatchFrameUi: Millis
    var deadFrameUi: int
    var lastDeadFrameUi: Millis

    // The highlight triples of the main menu, Controls and Settings.
    const menuHighlight: Highlight
    const ctlHighlight: Highlight
    const setHighlight: Highlight

    // Host globals that the display layer writes.
    var hasHatchedOnce: bool
    var hatchTriggered: bool
    var currentScreen: Screen

    /** The abstract value of the state. */
    ghost function Model(): UiModel
      reads this, menuHighlight, ctlHighlight, setHighlight
    {
      UiModel(Counter(huntFrame, lastHuntFrameTime), Counter(idleFrameUi, lastIdleFrameUi),
              Counter(eggIdleFrameUi, lastEggIdleTimeUi), Counter(hatchFrameUi, lastHatchFrameUi),
              Counter(deadFrameUi, lastDeadFrameUi),
              menuHighlight.Value(), ctlHighlight.Value(), setHighlight.Value(),
              hasHatchedOnce, hatchTriggered, currentScreen)
    }

    /** The three highlights are separate objects and every frame index is
        inside its sprite table. */
    ghost predicate Valid()
      reads this, menuHighlight, ctlHighlight, setHighlight
    {
      menuHighlight != ctlHighlight && menuHighlight != setHighlight && ctlHighlight != setHighlight &&
      FramesInRange(Model())
    }

    /** The static initialisers of ui.cpp, with the host flags as given. */
    constructor (hatched: bool, triggered: bool, screen: Screen)
      ensures Valid() && Model() == Initial(hatched, triggered, screen)
      ensures fresh(menuHighlight) && fresh(ctlHighlight) && fresh(setHighlight)
    {
      huntFrame, lastHuntFrameTime := 0, 0;
      idleFrameUi, lastIdleFrameUi := 0, 0;
      eggIdleFrameUi, lastEggIdleTimeUi := 0, 0;
      hatchFrameUi, lastHatchFrameUi := 0, 0;
      deadFrameUi, lastDeadFrameUi := 0, 0;
      menuHighlight := new Highlight();
      ctlHighlight := new Highlight();
      setHighlight := new Highlight();
      hasHatchedOnce, hatchTriggered, currentScreen := hatched, triggered, screen;
    }

    /** uiInit. */
    method Init(now: Millis)
      requires Valid()
      modifies this
      ensures Valid() && Model() == InitStep(old(Model()), now)
    {
      idleFrameUi := 0;
      lastIdleFrameUi := now;
      eggIdleFrameUi := 0;
      lastEggIdleTimeUi := now;
      hatchFrameUi := 0;
      lastHatchFrameUi := now;
      deadFrameUi := 0;
      lastDeadFrameUi := now;
    }

    /** uiOnScreenChange; the selected rows are the host's globals. */
    method OnScreenChange(newScreen: Screen, host: Host)
      requires Valid()
      modifies this, menuHighlight, ctlHighlight, setHighlight
      ensures Valid() && Model() == ScreenChangeStep(old(Model()), newScreen, host)
    {
      if newScreen == Menu {
        var v := CalcHighlightY(host.mainMenuIndex, 20, 30);
        menuHighlight.targetY := v;
        menuHighlight.y := v;
      }
      if newScreen == Controls {
        var v := CalcHighlightY(host.controlsIndex, 20, 30);
        ctlHighlight.targetY := v;
        ctlHighlight.y := v;
      }
      if newScreen == Settings {
        var v := CalcHighlightY(host.settingsMenuIndex, 18, 30);
        setHighlight.targetY := v;
        setHighlight.y := v;
      }
      if newScreen == Hatch {
        hatchFrameUi := 0;
        eggIdleFrameUi := 0;
      }
    }

    /** screenHatch; `cue` reports a call of sndHatch. */
    method ScreenHatch(host: Host, now: Millis) returns (shown: Shown, cue: bool)
      requires Valid()
      modifies this, menuHighlight, ctlHighlight, setHighlight
      ensures Valid()
      ensures Model() == HatchStep(old(Model()), host, now).next
      ensures shown == HatchStep(old(Model()), host, now).shown
      ensures cue == HatchStep(old(Model()), host, now).cue
    {
      cue := false;
      if !hasHatchedOnce && !hatchTriggered {
        if Elapsed(now, lastEggIdleTimeUi) >= EGG_IDLE_DELAY {
          lastEggIdleTimeUi := now;
          eggIdleFrameUi := (eggIdleFrameUi + 1) % 4;
        }
        shown := PetView(HATCH_HEADER, EggIdleSprite(eggIdleFrameUi), NoOverlay);
        return;
      }
      if !hasHatchedOnce && hatchTriggered {
        if hatchFrameUi == 0 {
          cue := true;
        }
        if Elapsed(now, lastHatchFrameUi) >= HATCH_DELAY {
          lastHatchFrameUi := now;
          if hatchFrameUi < 4 {
            hatchFrameUi := hatchFrameUi + 1;
          } else {
            hasHatchedOnce := true;
            hatchTriggered := false;
            hatchFrameUi := 0;
            currentScreen := Home;
            OnScreenChange(currentScreen, host);
            shown := Nothing;
            return;
          }
        }
        shown := PetView(HATCH_HEADER, EggSprite(hatchFrameUi), NoOverlay);
        return;
      }
      currentScreen := Home;
      OnScreenChange(currentScreen, host);
      shown := Nothing;
    }

    /** screenHome. */
    method ScreenHome(host: Host, now: Millis) returns (shown: Shown)
      requires Valid()
      modifies this
      ensures Valid()
      ensures Model() == HomeStep(old(Model()), host, now).next
      ensures shown == HomeStep(old(Model()), host, now).shown
    {
      var header := if host.activity != NoActivity then ActivityText(ActivityCode(host.activity)) else "Idle";
      if host.activity == Rest && host.restPhase != RestNone {
        var frameIdx := 0;
        if host.restPhase == RestEnter {
          frameIdx := 4 - Constrain(host.restFrameIndex, 0, 4);
        } else if host.restPhase == RestDeep {
          frameIdx := 0;
        } else if host.restPhase == RestWake {
          frameIdx := Constrain(host.restFrameIndex, 0, 4);
        }
        shown := PetView(header, EggSprite(frameIdx), NoOverlay);
        return;
      }
      if host.activity == Hunt {
        if Elapsed(now, lastHuntFrameTime) >= HUNT_FRAME_DELAY {
          lastHuntFrameTime := now;
          huntFrame := (huntFrame + 1) % 3;
        }
        shown := PetView(header, AttackSprite(huntFrame), NoOverlay);
        return;
      }
      var idleSpeed := IDLE_BASE_DELAY;
      if host.mood == Excited {
        idleSpeed := IDLE_FAST_DELAY;
      }
      if host.mood == Bored || host.mood == Sick {
        idleSpeed := IDLE_SLOW_DELAY;
      }
      if Elapsed(now, lastIdleFrameUi) >= idleSpeed {
        lastIdleFrameUi := now;
        idleFrameUi := (idleFrameUi + 1) % 4;
      }
      var idleSet := IdleSet(StageCode(host.stage));
      var overlay := if host.hungerEffectActive then HungerOverlay(host.hungerEffectFrame) else NoOverlay;
      shown := PetView(header, IdleSprite(idleSet, idleFrameUi), overlay);
    }

    /** screenGameOver. */
    method ScreenGameOver(now: Millis) returns (shown: Shown)
      requires Valid()
      modifies this
      ensures Valid()
      ensures Model() == GameOverStep(old(Model()), now).next
      ensures shown == GameOverStep(old(Model()), now).shown
    {
      if Elapsed(now, lastDeadFrameUi) >= DEAD_DELAY {
        lastDeadFrameUi := now;
        deadFrameUi := deadFrameUi + 1;
        if deadFrameUi > 2 {
          deadFrameUi := 2;
        }
      }
      shown := PetView(GAME_OVER_HEADER, DeadSprite(deadFrameUi), NoOverlay);
    }

    /** screenMenu, as far as state goes: ease the highlight. */
    method ScreenMenu(selected: int, now: Millis) returns (shown: Shown)
      requires Valid()
      modifies menuHighlight
      ensures Valid()
      ensures Model() == MenuStep(old(Model()), selected, now).next
      ensures shown == MenuStep(old(Model()), selected, now).shown
    {
      menuHighlight.Animate(now);
      shown := ListView(menuHighlight.y, selected);
    }

    /** screenControls, as far as state goes: ease the highlight. */
    method ScreenControls(selected: int, now: Millis) returns (shown: Shown)
      requires Valid()
      modifies ctlHighlight
      ensures Valid()
      ensures Model() == ControlsStep(old(Model()), selected, now).next
      ensures shown == ControlsStep(old(Model()), selected, now).shown
    {
      ctlHighlight.Animate(now);
      shown := ListView(ctlHighlight.y, selected);
    }

    /** screenSettings, as far as state goes: ease the highlight. */
    method ScreenSettings(selected: int, now: Millis) returns (shown: Shown)
      requires Valid()
      modifies setHighlight
      ensures Valid()
      ensures Model() == SettingsStep(old(Model()), selected, now).next
      ensures shown == SettingsStep(old(Model()), selected, now).shown
    {
      setHighlight.Animate(now);
      shown := ListView(setHighlight.y, selected);
    }

    /** uiDrawScreen: returns the renderer it ran, what that renderer shows and
        whether it requested the hatch sound. */
    method DrawScreen(screen: Screen, mainMenuIdx: int, controlsIdx: int, settingsIdx: int,
                      host: Host, now: Millis) returns (page: Renderer, shown: Shown, cue: bool)
      requires Valid()
      modifies this, menuHighlight, ctlHighlight, setHighlight
      ensures Valid()
      ensures page == Dispatch(screen, mainMenuIdx, controlsIdx, settingsIdx)
      ensures Model() == DrawStep(old(Model()), screen, mainMenuIdx, controlsIdx, settingsIdx, host, now).next
      ensures shown == DrawStep(old(Model()), screen, mainMenuIdx, controlsIdx, settingsIdx, host, now).shown
      ensures cue == DrawStep(old(Model()), screen, mainMenuIdx, controlsIdx, settingsIdx, host, now).cue
    {
      if screen == Menu {
        menuHighlight.targetY := CalcHighlightY(mainMenuIdx, 20, 30);
      }
      if screen == Controls {
        ctlHighlight.targetY := CalcHighlightY(controlsIdx, 20, 30) - 4;
      }
      if screen == Settings {
        setHighlight.targetY := CalcHighlightY(host.settingsMenuIndex, 18, 30) - 4;
      }
      assert Model() == SetTargets(old(Model()), screen, mainMenuIdx, controlsIdx, host.settingsMenuIndex);
      shown, cue := Nothing, false;
      match screen {
        case Boot =>
          page := BootPage;
        case Hatch =>
          page := HatchPage;
          shown, cue := ScreenHatch(host, now);
        case Home =>
          page := HomePage;
          shown := ScreenHome(host, now);
        case Menu =>
          page := MenuPage(mainMenuIdx);
          shown := ScreenMenu(mainMenuIdx, now);
        case PetStatus =>
          page := PetStatusPage;
        case Environment =>
          page := EnvironmentPage;
        case SysInfo =>
          page := SysInfoPage;
        case Controls =>
          page := ControlsPage(controlsIdx);
          shown := ScreenControls(controlsIdx, now);
        case Settings =>
          page := SettingsPage(settingsIdx);
          shown := ScreenSettings(settingsIdx, now);
        case Diagnostics =>
          page := DiagnosticsPage;
        case GameOver =>
          page := GameOverPage;
          shown := ScreenGameOver(now);
      }
    }
  }
}
